=== FILE: README.md ===
# csi-digitalocean integration harness: a Dafny model

The integration tests of the DigitalOcean CSI driver build pods that use
persistent-volume claims, wait for the cluster to converge (a pod running, a
volume resized, an object deleted), and read their settings from the
environment. This project models the deterministic core of that harness as
pure functions over immutable data and proves what the harness relies on:

- **Pod-spec wiring** (`PodSpec`): the busybox test container and the wiring of
  a claim into it as a filesystem mount or a raw block device. Exactly one
  volume is appended. Only containers with the given name change, and they
  gain exactly one mount or one device at `/data/<volume>`.
- **Names** (`Naming`): a test name becomes an app name (`_` becomes `-`,
  then ASCII lower-casing). A claim name is `pvc-` followed by the app name.
- **Convergence** (`Convergence`, `Classifiers`, `Waits`): every wait is one
  fold over a finite sequence of observations. Each observation is classified
  as `Pending`, `Success`, `Failure` or `Abort`, and the fold settles on the
  first non-Pending one. The deadline is a cut-off index: the number of
  observations that arrive before the timer fires.
  - Watch-based waits (pod running, PV or PVC capacity change) see the update
    notifications delivered before their five-minute timer.
  - Poll-based waits (deletions, pod count, provider action) see one
    immediate check and then `ticks` more checks. These are one per poller
    tick delivered while no check is running, plus the closing check made
    when the poller stops at the deadline.
- **Settings** (`Config`): storage-class override, the `SKIP_CLEANUP` flag,
  the API token taken from the first non-empty variable in a fixed order, and
  the minimum-cluster-version gate.
- **Droplet discovery** (`Discovery`): the first claim of a pod, and the
  droplet id parsed from a node's `digitalocean://<id>` provider id.
  Parsing follows Go's `strconv.Atoi` on a 64-bit platform.

I/O is replaced by parameters. The watch stream becomes a sequence of updates.
Each Get, Delete or List call becomes a sequence of replies. The process
environment becomes a map. Version parsing and comparison become function
parameters.

## Model

| member | source | states |
|---|---|---|
| PodSpec.TestPodSpec | test/kubernetes/integration_test.go:98-111 | the spec has exactly one container, named after the app, with no mounts, no devices and no volumes |
| PodSpec.Attach | test/kubernetes/integration_test.go:131-141 | the container keeps its name, image and command; in Block mode it gains exactly one device, `/data/<volume>` named after the volume, after its existing devices and keeps its mounts; in any other mode it gains exactly one such mount after its existing mounts and keeps its devices |
| PodSpec.WireContainers | test/kubernetes/integration_test.go:122-143 | the container list keeps its length; a container with another name stays the same at its position; a matching container is replaced by its wired version |
| PodSpec.AddPersistentVolume | test/kubernetes/integration_test.go:121-157 | exactly one volume, named `volumeName` with claim `claimName`, is appended after the existing ones, even when no container matches; the container count is unchanged; non-matching containers are untouched; names, images and commands never change; a matching container gains exactly one device `/data/<volume>` in Block mode (mounts unchanged) and otherwise exactly one mount at that path (devices unchanged) |
| PodSpec.AddPersistentVolumeMount | test/kubernetes/integration_test.go:113-115 | a matching container gains one mount at `/data/<volume>` and keeps its devices; other containers are untouched; one claim volume is appended |
| PodSpec.AddPersistentVolumeDevice | test/kubernetes/integration_test.go:117-119 | a matching container gains one device at `/data/<volume>` and keeps its mounts; other containers are untouched; one claim volume is appended |
| PodSpec.NoMatchingContainerOnlyAddsVolume | test/kubernetes/integration_test.go:121-157 | when no container has the name, the result is the input with only the claim volume appended |
| PodSpec.TwoVolumesKeepCallOrder | test/kubernetes/integration_test.go:561-563 | wiring two claims in a row appends both volumes, and both mounts (or devices), in call order |
| Naming.LowerAscii | test/kubernetes/integration_test.go:181 | the result is never an upper-case ASCII letter; an upper-case letter moves down by 32 code points; every other character is kept |
| Naming.ReplaceAll | test/kubernetes/integration_test.go:181 | same length, and each character equal to `from` becomes `to` while every other character is kept |
| Naming.ToLower | test/kubernetes/integration_test.go:181 | same length, and each character is the ASCII lower-case of the input character |
| Naming.TestAppName | test/kubernetes/integration_test.go:180-182 | same length as the test name; no `_` and no upper-case ASCII letter; each position holds `-` for `_` and the lower-cased input character otherwise |
| Naming.TestClaimName | test/kubernetes/integration_test.go:185-187 | four characters longer than the test name, sanitized, starting with `pvc-` followed by the app name, and never equal to the app name |
| Naming.AppNameFixedPoints | test/kubernetes/integration_test.go:180-182 | sanitizing leaves a name unchanged if and only if it has no `_` and no upper-case ASCII letter |
| Naming.AppNameIdempotent | test/kubernetes/integration_test.go:180-182 | sanitizing an app name again changes nothing |
| Naming.ClaimNameIsFixedPoint | test/kubernetes/integration_test.go:185-187 | a claim name is already sanitized |
| Naming.AppNameOfConcat | test/kubernetes/integration_test.go:181 | sanitizing works character by character: the name of a concatenation is the concatenation of the names |
| Convergence.Settle | test/kubernetes/integration_test.go:1166-1175 | a decisive verdict gives exactly one outcome: success gives the value, failure the reason, abort the cause; never a timeout |
| Convergence.FirstVerdict | test/kubernetes/integration_test.go:1141-1181 | a wait times out if and only if every observation before the cut-off is Pending, and then carries its own timeout text; otherwise its outcome is the settled verdict of some observation before the cut-off |
| Convergence.FirstDecisiveObservationWins | test/kubernetes/integration_test.go:1159-1176 | when every observation before index k is Pending and observation k is decisive and arrives before the cut-off, the wait settles on observation k |
| Convergence.DeadlineBeforeVerdictTimesOut | test/kubernetes/integration_test.go:1146-1153 | when the timer fires before the first decisive observation arrives, the wait times out, whatever that observation says |
| Convergence.LaterObservationsIgnored | test/kubernetes/integration_test.go:1166-1180 | once a wait has settled, appending any further observations leaves its outcome unchanged |
| Convergence.OnlyObservationsBeforeDeadlineMatter | test/kubernetes/integration_test.go:1146-1153 | the outcome depends only on the observations before the cut-off |
| Convergence.PendingObservationInvisible | test/kubernetes/integration_test.go:1161-1164 | removing a Pending observation that arrives before the deadline, and moving the deadline back by one, leaves the outcome unchanged |
| Convergence.RunUntilStopped | test/kubernetes/integration_test.go:1178-1180 | the handler loop, which stops at the first decisive notification, returns the fold's outcome; it handles no notification after the cut-off; on success or failure, the last handled notification is the decisive one |
| Convergence.PollImmediate | test/kubernetes/integration_test.go:1184-1194 | the poll stops at its first decisive check: a decisive first check decides before any interval elapses, and any other non-timeout outcome is the settled verdict of a check before the deadline that only Pending checks precede; it times out, with the poll-timeout text, exactly when every check before the deadline is Pending |
| Classifiers.ClassifyPod | test/kubernetes/integration_test.go:1159-1176 | an update for another pod is Pending; Failed or Succeeded gives the terminated-pod failure; Running gives success with that pod; every other phase is Pending; never an abort |
| Classifiers.ClassifyVolume | test/kubernetes/integration_test.go:1251-1265 | other volumes are Pending; Failed gives the failed-volume failure; success exactly when Bound and the `storage` capacity differs from the baseline; Bound with unchanged capacity is Pending |
| Classifiers.ClassifyClaim | test/kubernetes/integration_test.go:1293-1306 | other claims are Pending; Lost gives the lost-claim failure; success exactly when Bound and the `storage` capacity differs from the baseline; Bound with unchanged capacity is Pending |
| Resources.StorageOf | test/kubernetes/integration_test.go:1261 | the `storage` entry of a resource list, or the zero quantity when the list has none, as Go's map lookup gives |
| Classifiers.AbsenceCondition | test/kubernetes/integration_test.go:1184-1194 | "not found" means done; no error means keep polling; any other error aborts with that error |
| Classifiers.PodCountCondition | test/kubernetes/integration_test.go:1122-1135 | success, carrying the listed pods, exactly when the list has `count` items; a list error aborts; otherwise keep polling |
| Classifiers.ActionCondition | test/kubernetes/integration_test.go:951-961 | success exactly when the fetched action is `completed`; a fetch error aborts; otherwise keep polling |
| Waits.WaitForPod | test/kubernetes/integration_test.go:1141-1181 | a successful wait returns an update delivered before the timer, for the awaited pod, in phase Running; a failure carries the terminated-pod text; it times out exactly when no update before the timer is a Running, Failed or Succeeded update of that pod; it never aborts |
| Waits.WaitForVolumeCapacityChange | test/kubernetes/integration_test.go:1232-1272 | a successful wait returns an update delivered before the timer, for the target volume, Bound with a storage capacity other than the baseline's; a failure carries the failed-volume text; it times out, with its own text, exactly when no update before the timer is a Failed update or a capacity-changing Bound update of that volume; it never aborts |
| Waits.WaitForVolumeClaimCapacityChange | test/kubernetes/integration_test.go:1274-1314 | a successful wait returns an update delivered before the timer, for the target claim, Bound with a storage capacity other than the baseline's; a failure carries the lost-claim text; it times out, with its own text, exactly when no update before the timer is a Lost update or a capacity-changing Bound update of that claim; it never aborts |
| Waits.WaitForDeletion | test/kubernetes/integration_test.go:1102-1113 | done only after a "not found" reply before the deadline; an abort carries the error of a reply before the deadline; it times out, with the poll-timeout text, exactly when every reply before the deadline says the object still exists; it never fails |
| Waits.WaitForPodCount | test/kubernetes/integration_test.go:1116-1138 | a successful wait returns the items of a listing before the deadline with exactly `count` pods; an abort carries the error of a listing before the deadline; it times out exactly when no listing before the deadline fails or has `count` pods |
| Waits.WaitForActionCompleted | test/kubernetes/integration_test.go:950-964 | done only after a fetch before the deadline reporting `completed`; an abort carries the error of a fetch before the deadline; it times out exactly when no fetch before the deadline fails or reports `completed` |
| Waits.RunningPodSucceeds | test/kubernetes/integration_test.go:1171-1175 | a Running update of the awaited pod, before the timer and after only non-decisive updates, ends the wait with exactly that update |
| Waits.TerminatedPodFailsWait | test/kubernetes/integration_test.go:1166-1170 | a Failed or Succeeded update of the awaited pod, arriving before the timer and before any other decisive update, ends the wait with the terminated-pod failure |
| Waits.OtherPodsAreIgnored | test/kubernetes/integration_test.go:1161-1164 | an update for another pod, delivered before the timer, never changes the outcome of the wait |
| Waits.UnchangedCapacityTimesOut | test/kubernetes/integration_test.go:1261-1265 | Bound updates whose capacity equals the baseline never settle the wait; only the timer ends it |
| Waits.DeletionConvergesOnThirdCheck | test/kubernetes/integration_test.go:1183-1197 | replies [exists, exists, not found] give done when the poll makes at least three checks, and a timeout otherwise |
| Waits.FaultEndsPoll | test/kubernetes/integration_test.go:1215-1229 | an error on the second check aborts the poll with that error; it is not retried |
| Waits.VolumeWaitSettlesOnFirstDecisive | test/kubernetes/integration_test.go:1251-1265 | the first decisive update of the target volume before the timer decides the wait: Failed gives the failed-volume failure, a capacity-changing Bound update is returned |
| Waits.ClaimWaitSettlesOnFirstDecisive | test/kubernetes/integration_test.go:1293-1306 | the first decisive update of the target claim before the timer decides the wait: Lost gives the lost-claim failure, a capacity-changing Bound update is returned |
| Waits.DeletionSettlesOnFirstAnswer | test/kubernetes/integration_test.go:1102-1113 | the first reply before the deadline that does not say "still exists" decides the deletion wait: "not found" ends it, any other error aborts it with that error |
| Waits.PodCountSettlesOnFirstDecisive | test/kubernetes/integration_test.go:1122-1135 | the first listing before the deadline that fails or holds `count` pods decides the wait: a list error aborts it, otherwise exactly that listing's pods are returned |
| Waits.ActionSettlesOnFirstDecisive | test/kubernetes/integration_test.go:951-961 | the first fetch before the deadline that fails or reports `completed` decides the wait: a fetch error aborts it, completion ends it |
| Config.FirstNonEmpty | test/kubernetes/integration_test.go:991-997 | the result is "" if and only if every variable is empty; otherwise it is the value of a variable that is preceded only by empty ones |
| Config.Getenv | test/kubernetes/integration_test.go:983-994 | the variable's value when it is set, and "" when it is not; a non-empty value means the variable is set |
| Config.Setup | test/kubernetes/integration_test.go:980-1001 | a non-empty `TEST_STORAGE_CLASS` replaces the default class; `skipCleanup` holds if and only if `SKIP_CLEANUP` is non-empty and not `false`; the token is an error, with the listing message, if and only if both token variables are empty; otherwise the token is `CSI_DIGITALOCEAN_ACCESS_TOKEN`, falling back to `DIGITALOCEAN_ACCESS_TOKEN` |
| Config.VersionGate | test/kubernetes/integration_test.go:1066-1079 | an empty minimum version always runs; an unparsable version is fatal; the test is skipped if and only if the version parses and the cluster is older |
| Discovery.FirstClaimName | test/kubernetes/integration_test.go:878-884 | "" when no volume has a claim; otherwise the claim name of the first volume that has one |
| Discovery.WiredClaimIsDiscovered | test/kubernetes/integration_test.go:145-156 | after wiring a claim into a spec that had no claim volumes, the first claim found is that claim |
| Discovery.RunningPodLeadsToItsClaim | test/kubernetes/integration_test.go:861-884 | when every delivered update of the awaited pod carries a claim as its first claim volume, the pod the wait returns leads the claim lookup to that claim |
| Discovery.TestPodClaimIsDiscovered | test/kubernetes/integration_test.go:836-837 | the pod built by the detach test leads the lookup back to its own claim |
| Discovery.Atoi | test/kubernetes/integration_test.go:933 | empty text fails; unsigned text parses exactly when it is all ASCII digits with a value at most 2^63-1, giving that value; `+` followed by one or more digits parses to their value under the same bound; `-` followed by one or more digits parses to minus their value when it is at most 2^63; anything else fails |
| Discovery.NatDigits | test/kubernetes/integration_test.go:933 | the decimal spelling used to state the parsing round trip (the formatting side, not in the source): non-empty, all digits, and its digit value is the number spelled |
| Discovery.AtoiItoaRoundTrip | test/kubernetes/integration_test.go:933 | parsing the decimal spelling of any 64-bit value gives that value back |
| Discovery.TrimPrefix | test/kubernetes/integration_test.go:931 | a string starting with the prefix is the prefix followed by the result; any other string is returned as it is |
| Discovery.DropletId | test/kubernetes/integration_test.go:928-942 | no node with the name means missing; a found id is non-zero, in 64-bit range, and parsed from the provider id of the first node with that name; a parse failure names the provider id of that first node; conversely, for the first node with the name, an unparsable provider id gives that parse failure, a parsed 0 gives missing, and any other parsed id gives that droplet |
| Discovery.DropletIdRoundTrip | test/kubernetes/integration_test.go:928-942 | a node whose provider id is `digitalocean://` followed by a non-zero id, with no earlier node of that name, yields that id, whatever nodes follow |

## Left out

- Goroutines, the `stopCh` channel and the informer's run loop are modelled by a
  sequential fold. The timer becomes a cut-off index. The source's
  unsynchronised writes to the result variables, and a possible second
  `close` of the stop channel, are not modelled.
- Informer Add and Delete events are left out. Only `UpdateFunc` classifies,
  so the update sequence is the input. Periodic resyncs are just more updates.
- Poll timing is left out: the 3 s and 5 s intervals, the 1, 2 and 5 minute
  deadlines, the ticks the poller drops while a check is still running, and
  the race at the deadline tick. It becomes `ticks`, the number of checks
  after the immediate one, counting the closing check at the deadline.
- Every Kubernetes, snapshot and provider API call is left out, along with
  oauth and kubeconfig loading in `setup` and namespace deletion in `teardown`.
  Their results become input sequences.
- Label-selector construction in `appSelector` is left out, and so is the
  error return of `waitForPodCount` when the selector is invalid.
- `resource.MustParse` and `Quantity` arithmetic are left out. A quantity is an
  opaque value compared with `==`, like Go's structural `!=`.
- `testPersistentVolumeClaim` and the test scenario functions are left out.
  They are scripted object construction and create/delete sequences.
  `Discovery.TestPodClaimIsDiscovered` and `PodSpec.TwoVolumesKeepCallOrder`
  restate only the wiring those scenarios do.
- The persistent-volume and volume-attachment lookups of the detach test are
  left out. They are scenario code. Only the claim lookup and the droplet-id
  extraction are modelled.
- Naming.LowerAscii: lower-cases ASCII letters only and keeps every other
  character, where Go's `strings.ToLower` applies Unicode case mapping.
  Lengths are counted in characters, not UTF-8 bytes.
- Naming.ToLower: inherits the ASCII-only restriction of `Naming.LowerAscii`.
- Naming.TestAppName: inherits the ASCII-only restriction of `Naming.LowerAscii`.
- Config.VersionGate: the fatal message omits the parser's error text, and
  version parsing and comparison are parameters, not the semver library.
- The droplet lookup reports a node whose provider id parses as 0 as a missing
  node, as the source does, since it tests `dropletID == 0` after the scan.

=== FILE: classifiers.dfy ===
/**
 * The per-observation rules of the harness's waits: the update handlers of the
 * watch-based waits and the condition functions of the poll-based waits.
 * Each is a total function of one observed snapshot.
 */
module Classifiers {
  import opened Resources
  import opened Convergence

  const PodTerminatedMessage := "pod status is Failed or in Succeeded status (terminated)"
  const VolumeFailedMessage := "Persistent volume status is Failed"
  const ClaimLostMessage := "Persistent volume claim status is Lost"

  /** Handler of pod updates while waiting for pod `target` to run. */
  function ClassifyPod(target: string, pod: Pod): (v: Verdict<Pod>)
    ensures pod.name != target ==> v == Pending
    ensures v.Failure? <==> pod.name == target && (pod.phase == PodFailed || pod.phase == PodSucceeded)
    ensures v.Failure? ==> v.reason == PodTerminatedMessage
    ensures v.Success? <==> pod.name == target && pod.phase == PodRunning
    ensures v.Success? ==> v.value == pod
    ensures !v.Abort?
  {
    if target != pod.name then Pending
    else if pod.phase == PodFailed || pod.phase == PodSucceeded then Failure(PodTerminatedMessage)
    else if pod.phase == PodRunning then Success(pod)
    else Pending
  }

  /** Handler of persistent-volume updates while waiting for volume `target`
      to be bound with a storage capacity other than `baseline`'s. */
  function ClassifyVolume(target: string, baseline: ResourceList, pv: PersistentVolume): (v: Verdict<PersistentVolume>)
    ensures pv.name != target ==> v == Pending
    ensures v.Failure? <==> pv.name == target && pv.phase == VolumeFailed
    ensures v.Failure? ==> v.reason == VolumeFailedMessage
    ensures v.Success? <==> pv.name == target && pv.phase == VolumeBound && StorageOf(pv.capacity) != StorageOf(baseline)
    ensures v.Success? ==> v.value == pv
    ensures !v.Abort?
  {
    if target != pv.name then Pending
    else if pv.phase == VolumeFailed then Failure(VolumeFailedMessage)
    else if pv.phase == VolumeBound && StorageOf(pv.capacity) != StorageOf(baseline) then Success(pv)
    else Pending
  }

  /** Handler of claim updates while waiting for claim `target` to be bound
      with a storage capacity other than `baseline`'s. */
  function ClassifyClaim(target: string, baseline: ResourceList, claim: Claim): (v: Verdict<Claim>)
    ensures claim.name != target ==> v == Pending
    ensures v.Failure? <==> claim.name == target && claim.phase == ClaimLost
    ensures v.Failure? ==> v.reason == ClaimLostMessage
    ensures v.Success? <==> claim.name == target && claim.phase == ClaimBound
                            && StorageOf(claim.capacity) != StorageOf(baseline)
    ensures v.Success? ==> v.value == claim
    ensures !v.Abort?
  {
    if target != claim.name then Pending
    else if claim.phase == ClaimLost then Failure(ClaimLostMessage)
    else if claim.phase == ClaimBound && StorageOf(claim.capacity) != StorageOf(baseline) then Success(claim)
    else Pending
  }

  /** Poll condition of the deletion waits (pods, deployments, claims, the
      test namespace): the object is gone once the API answers "not found". */
  function AbsenceCondition(reply: Reply): (v: Verdict<()>)
    ensures v.Success? <==> reply.NotFound?
    ensures v.Pending? <==> reply.Existing?
    ensures v.Abort? <==> reply.Fault?
    ensures v.Abort? ==> v.cause == reply.cause
    ensures !v.Failure?
  {
    match reply
    case NotFound => Success(())
    case Existing => Pending
    case Fault(cause) => Abort(cause)
  }

  /** Poll condition waiting for exactly `count` pods of an application. */
  function PodCountCondition(count: int, listing: Listing<Pod>): (v: Verdict<seq<Pod>>)
    ensures v.Success? <==> listing.Listed? && |listing.items| == count
    ensures v.Success? ==> v.value == listing.items
    ensures v.Abort? <==> listing.ListFault?
    ensures v.Abort? ==> v.cause == listing.cause
    ensures !v.Failure?
  {
    match listing
    case ListFault(cause) => Abort(cause)
    case Listed(items) => if |items| != count then Pending else Success(items)
  }

  /** Poll condition waiting for a storage action of the provider to complete. */
  function ActionCondition(fetch: ActionFetch): (v: Verdict<()>)
    ensures v.Success? <==> fetch.Fetched? && fetch.status == ActionCompleted
    ensures v.Abort? <==> fetch.FetchFault?
    ensures v.Abort? ==> v.cause == fetch.cause
    ensures !v.Failure?
  {
    match fetch
    case FetchFault(cause) => Abort(cause)
    case Fetched(status) => if status == ActionCompleted then Success(()) else Pending
  }
}

=== FILE: config.dfy ===
/**
 * The harness's settings, read from the process environment at start-up, and
 * the rule that skips a test on clusters older than it needs.
 */
module Config {
  import opened Wrappers

  /** The process environment; a variable that is absent reads as "". */
  type Env = map<string, string>

  function Getenv(env: Env, key: string): (v: string)
    ensures key in env ==> v == env[key]
    ensures key !in env ==> v == ""
    ensures v != "" ==> key in env
  {
    if key in env then env[key] else ""
  }

  const StorageClassVar := "TEST_STORAGE_CLASS"
  const SkipCleanupVar := "SKIP_CLEANUP"
  const DefaultStorageClass := "do-luks-block-storage"

  /** The variables that may hold the provider API token, in order of preference. */
  const TokenEnvVars: seq<string> := ["CSI_DIGITALOCEAN_ACCESS_TOKEN", "DIGITALOCEAN_ACCESS_TOKEN"]

  /** The error text when no token variable is set. */
  const MissingTokenMessage :=
    "DO API token must be provided in one of the following environment variables: "
    + "CSI_DIGITALOCEAN_ACCESS_TOKEN, DIGITALOCEAN_ACCESS_TOKEN"

  /** The variables before index `i` are all empty. */
  ghost predicate EmptyBefore(env: Env, vars: seq<string>, i: nat)
    requires i <= |vars|
  {
    forall j :: 0 <= j < i ==> Getenv(env, vars[j]) == ""
  }

  /** The value of the first variable of `vars` that is set and non-empty,
      or "" when there is none. */
  function FirstNonEmpty(env: Env, vars: seq<string>): (r: string)
    ensures r == "" <==> EmptyBefore(env, vars, |vars|)
    ensures r != "" ==> exists i :: 0 <= i < |vars| && EmptyBefore(env, vars, i) && r == Getenv(env, vars[i])
  {
    if vars == [] then ""
    else if Getenv(env, vars[0]) != "" then Getenv(env, vars[0])
    else
      var r := FirstNonEmpty(env, vars[1..]);
      assert forall j :: 0 <= j < |vars| - 1 ==> vars[1..][j] == vars[j + 1];
      r
  }

  datatype Settings = Settings(storageClass: string, skipCleanup: bool, token: Result<string>)

  /** The settings start-up derives from the environment. The storage class
      and the clean-up flag are decided even when no token is found. */
  function Setup(env: Env): (s: Settings)
    ensures Getenv(env, StorageClassVar) != "" ==> s.storageClass == Getenv(env, StorageClassVar)
    ensures Getenv(env, StorageClassVar) == "" ==> s.storageClass == DefaultStorageClass
    ensures s.skipCleanup <==> Getenv(env, SkipCleanupVar) != "" && Getenv(env, SkipCleanupVar) != "false"
    ensures s.token.Err? <==> forall v :: v in TokenEnvVars ==> Getenv(env, v) == ""
    ensures s.token.Err? ==> s.token.message == MissingTokenMessage
    ensures s.token.Ok? ==> s.token.value != ""
    ensures Getenv(env, TokenEnvVars[0]) != "" ==> s.token == Ok(Getenv(env, TokenEnvVars[0]))
    ensures Getenv(env, TokenEnvVars[0]) == "" && Getenv(env, TokenEnvVars[1]) != "" ==>
      s.token == Ok(Getenv(env, TokenEnvVars[1]))
  {
    var storageClass := if Getenv(env, StorageClassVar) != "" then Getenv(env, StorageClassVar) else DefaultStorageClass;
    var skip := Getenv(env, SkipCleanupVar);
    var token := FirstNonEmpty(env, TokenEnvVars);
    assert EmptyBefore(env, TokenEnvVars, 0);
    Settings(storageClass, skip != "" && skip != "false",
             if token == "" then Err(MissingTokenMessage) else Ok(token))
  }

  /** Whether a test needing a minimum cluster version runs. */
  datatype Gate = Run | Skip(message: string) | Fatal(message: string)

  /** Skips the test when the cluster is older than `minVersion`. Version
      parsing and comparison are a library's, so both are parameters:
      `parse` reads a version, `clusterOlderThan` compares it with the
      cluster's own version. */
  function VersionGate<V>(minVersion: string, parse: string -> Option<V>, clusterOlderThan: V -> bool): (g: Gate)
    ensures minVersion == "" ==> g == Run
    ensures g.Fatal? <==> minVersion != "" && parse(minVersion).None?
    ensures g.Skip? <==> minVersion != "" && parse(minVersion).Some? && clusterOlderThan(parse(minVersion).value)
    ensures g.Skip? ==> g.message == "minimum kubernetes version " + minVersion + " is required"
  {
    if minVersion == "" then Run
    else match parse(minVersion)
      case None => Fatal("failed to parse version")
      case Some(v) => if clusterOlderThan(v) then Skip("minimum kubernetes version " + minVersion + " is required") else Run
  }
}

=== FILE: convergence.dfy ===
/**
 * The convergence primitive shared by every wait of the harness. A wait looks
 * at a finite sequence of observations (watch notifications, or the results of
 * successive polls) in order, classifies each one, and settles on the first
 * classification that is not Pending. The deadline is a cut-off index: the
 * number of observations that arrive before the timer fires. When no decisive
 * observation arrives before the cut-off, the wait times out.
 */
module Convergence {

  /** What one observation says: keep waiting, the awaited state was reached,
      the resource reached a state from which it will not recover, or the
      observation itself failed and the wait must stop. */
  datatype Verdict<+T> = Pending | Success(value: T) | Failure(reason: string) | Abort(cause: string)

  /** What a wait returns. Exactly one of these per wait. */
  datatype Outcome<+T> = Done(value: T) | Failed(reason: string) | Aborted(cause: string) | TimedOut(message: string)

  /** The error text of a poll that reached its deadline. */
  const PollTimeoutMessage := "timed out waiting for the condition"

  /** The outcome a decisive verdict settles the wait on. */
  function Settle<T>(v: Verdict<T>): (o: Outcome<T>)
    requires !v.Pending?
    ensures !o.TimedOut?
    ensures o.Done? <==> v.Success?
    ensures o.Done? ==> o.value == v.value
    ensures o.Failed? <==> v.Failure?
    ensures o.Failed? ==> o.reason == v.reason
    ensures o.Aborted? <==> v.Abort?
    ensures o.Aborted? ==> o.cause == v.cause
  {
    match v
    case Success(x) => Done(x)
    case Failure(reason) => Failed(reason)
    case Abort(cause) => Aborted(cause)
  }

  /** How many of `n` observations arrive before a cut-off. */
  function Horizon(n: nat, cutoff: nat): (h: nat)
    ensures h <= n && h <= cutoff
    ensures h == n || h == cutoff
  {
    if n < cutoff then n else cutoff
  }

  /** The first `n` observations are all classified Pending. */
  ghost predicate AllPending<O, T>(classify: O -> Verdict<T>, obs: seq<O>, n: nat)
    requires n <= |obs|
  {
    forall j :: 0 <= j < n ==> classify(obs[j]).Pending?
  }

  /** The fold itself: classify the observations in order and stop at the
      first decisive one, or at the cut-off. */
  function Scan<O, T>(classify: O -> Verdict<T>, obs: seq<O>, cutoff: nat, timeout: string): Outcome<T>
    decreases |obs|
  {
    if obs == [] || cutoff == 0 then TimedOut(timeout)
    else
      var v := classify(obs[0]);
      if v.Pending? then Scan(classify, obs[1..], cutoff - 1, timeout) else Settle(v)
  }

  /** The index of the first decisive observation among the first `n`, or `n`
      when all of them are Pending. */
  function FirstDecisiveIndex<O, T>(classify: O -> Verdict<T>, obs: seq<O>, n: nat): (k: nat)
    requires n <= |obs|
    ensures k <= n
    ensures AllPending(classify, obs, k)
    ensures k < n ==> !classify(obs[k]).Pending?
  {
    if n == 0 || !classify(obs[0]).Pending? then 0
    else
      var k := 1 + FirstDecisiveIndex(classify, obs[1..], n - 1);
      assert forall j :: 1 <= j < k ==> obs[j] == obs[1..][j - 1];
      k
  }

  /** The fold settles on a decisive observation that only Pending ones precede. */
  lemma {:induction false} ScanSettlesAt<O, T>(classify: O -> Verdict<T>, obs: seq<O>, cutoff: nat,
                                               timeout: string, k: nat)
    requires k < |obs| && k < cutoff
    requires AllPending(classify, obs, k)
    requires !classify(obs[k]).Pending?
    ensures Scan(classify, obs, cutoff, timeout) == Settle(classify(obs[k]))
  {
    if k > 0 {
      assert classify(obs[0]).Pending?;
      assert AllPending(classify, obs[1..], k - 1) by {
        forall j | 0 <= j < k - 1
          ensures classify(obs[1..][j]).Pending?
        {
          assert obs[1..][j] == obs[j + 1];
        }
      }
      ScanSettlesAt(classify, obs[1..], cutoff - 1, timeout, k - 1);
    }
  }

  /** The fold times out when everything before the cut-off is Pending. */
  lemma {:induction false} ScanTimesOut<O, T>(classify: O -> Verdict<T>, obs: seq<O>, cutoff: nat, timeout: string)
    requires AllPending(classify, obs, Horizon(|obs|, cutoff))
    ensures Scan(classify, obs, cutoff, timeout) == TimedOut(timeout)
  {
    if obs != [] && cutoff > 0 {
      assert classify(obs[0]).Pending?;
      assert AllPending(classify, obs[1..], Horizon(|obs[1..]|, cutoff - 1)) by {
        forall j | 0 <= j < Horizon(|obs[1..]|, cutoff - 1)
          ensures classify(obs[1..][j]).Pending?
        {
          assert obs[1..][j] == obs[j + 1];
        }
      }
      ScanTimesOut(classify, obs[1..], cutoff - 1, timeout);
    }
  }

  /** The wait over `obs` with the deadline after `cutoff` observations. */
  function FirstVerdict<O, T>(classify: O -> Verdict<T>, obs: seq<O>, cutoff: nat, timeout: string): (o: Outcome<T>)
    ensures o.TimedOut? <==> AllPending(classify, obs, Horizon(|obs|, cutoff))
    ensures o.TimedOut? ==> o.message == timeout
    ensures !o.TimedOut? ==>
      exists k :: 0 <= k < Horizon(|obs|, cutoff) && !classify(obs[k]).Pending? && o == Settle(classify(obs[k]))
  {
    var h := Horizon(|obs|, cutoff);
    var k := FirstDecisiveIndex(classify, obs, h);
    if k < h then
      ScanSettlesAt(classify, obs, cutoff, timeout, k);
      Scan(classify, obs, cutoff, timeout)
    else
      ScanTimesOut(classify, obs, cutoff, timeout);
      Scan(classify, obs, cutoff, timeout)
  }

  /** The wait settles on the first decisive observation before the deadline. */
  lemma FirstDecisiveObservationWins<O, T>(classify: O -> Verdict<T>, obs: seq<O>, cutoff: nat,
                                           timeout: string, k: nat)
    requires k < |obs| && k < cutoff
    requires AllPending(classify, obs, k)
    requires !classify(obs[k]).Pending?
    ensures FirstVerdict(classify, obs, cutoff, timeout) == Settle(classify(obs[k]))
  {
    ScanSettlesAt(classify, obs, cutoff, timeout, k);
  }

  /** When the timer fires before the first decisive observation arrives, the
      wait times out, whatever that observation says. */
  lemma DeadlineBeforeVerdictTimesOut<O, T>(classify: O -> Verdict<T>, obs: seq<O>, cutoff: nat,
                                          timeout: string, k: nat)
    requires k < |obs| && cutoff <= k
    requires AllPending(classify, obs, k)
    ensures FirstVerdict(classify, obs, cutoff, timeout) == TimedOut(timeout)
  {
    assert AllPending(classify, obs, Horizon(|obs|, cutoff));
  }

  /** Once the wait has settled, observations arriving later change nothing. */
  lemma LaterObservationsIgnored<O, T>(classify: O -> Verdict<T>, obs: seq<O>, later: seq<O>,
                                       cutoff: nat, timeout: string)
    requires !FirstVerdict(classify, obs, cutoff, timeout).TimedOut?
    ensures FirstVerdict(classify, obs + later, cutoff, timeout) == FirstVerdict(classify, obs, cutoff, timeout)
  {
    var k := FirstDecisiveIndex(classify, obs, Horizon(|obs|, cutoff));
    var all := obs + later;
    assert forall j :: 0 <= j <= k ==> all[j] == obs[j];
    assert AllPending(classify, all, k);
    FirstDecisiveObservationWins(classify, obs, cutoff, timeout, k);
    FirstDecisiveObservationWins(classify, all, cutoff, timeout, k);
  }

  /** Observations at or after the cut-off are never classified. */
  lemma OnlyObservationsBeforeDeadlineMatter<O, T>(classify: O -> Verdict<T>, obs: seq<O>,
                                                   cutoff: nat, timeout: string)
    ensures FirstVerdict(classify, obs, cutoff, timeout)
         == FirstVerdict(classify, obs[..Horizon(|obs|, cutoff)], cutoff, timeout)
  {
    var h := Horizon(|obs|, cutoff);
    var p := obs[..h];
    assert forall j :: 0 <= j < h ==> p[j] == obs[j];
    assert Horizon(|p|, cutoff) == h;
    var k := FirstDecisiveIndex(classify, obs, h);
    assert AllPending(classify, p, k);
    if k < h {
      FirstDecisiveObservationWins(classify, obs, cutoff, timeout, k);
      FirstDecisiveObservationWins(classify, p, cutoff, timeout, k);
    }
  }

  /** An observation classified Pending is invisible: removing it, and moving
      the deadline one observation earlier, leaves the outcome unchanged. */
  lemma PendingObservationInvisible<O, T>(classify: O -> Verdict<T>, before: seq<O>, x: O,
                                          after: seq<O>, cutoff: nat, timeout: string)
    requires classify(x).Pending?
    requires |before| <= cutoff
    ensures FirstVerdict(classify, before + [x] + after, cutoff + 1, timeout)
         == FirstVerdict(classify, before + after, cutoff, timeout)
  {
    var k := FirstDecisiveIndex(classify, before, |before|);
    if k < |before| {
      DecidedBeforeInvisible(classify, before, x, after, cutoff, timeout, k);
    } else {
      DecidedAfterInvisible(classify, before, x, after, cutoff, timeout);
    }
  }

  /** A decisive observation before `x` settles the wait alike with and without `x`. */
  lemma DecidedBeforeInvisible<O, T>(classify: O -> Verdict<T>, before: seq<O>, x: O, after: seq<O>,
                                     cutoff: nat, timeout: string, k: nat)
    requires k < |before| <= cutoff
    requires AllPending(classify, before, k) && !classify(before[k]).Pending?
    ensures FirstVerdict(classify, before + [x] + after, cutoff + 1, timeout) == Settle(classify(before[k]))
    ensures FirstVerdict(classify, before + after, cutoff, timeout) == Settle(classify(before[k]))
  {
    var long := before + [x] + after;
    var short := before + after;
    assert forall j :: 0 <= j <= k ==> long[j] == before[j] && short[j] == before[j];
    assert AllPending(classify, long, k) && AllPending(classify, short, k);
    FirstDecisiveObservationWins(classify, long, cutoff + 1, timeout, k);
    FirstDecisiveObservationWins(classify, short, cutoff, timeout, k);
  }

  /** When everything before `x` is Pending, the wait with `x` and the wait
      without it both come down to `after` with the same time left. */
  lemma DecidedAfterInvisible<O, T>(classify: O -> Verdict<T>, before: seq<O>, x: O, after: seq<O>,
                                    cutoff: nat, timeout: string)
    requires |before| <= cutoff
    requires AllPending(classify, before, |before|) && classify(x).Pending?
    ensures FirstVerdict(classify, before + [x] + after, cutoff + 1, timeout)
         == FirstVerdict(classify, before + after, cutoff, timeout)
  {
    var long := before + [x] + after;
    var short := before + after;
    var m := |before|;
    var ha := Horizon(|after|, cutoff - m);
    var ka := FirstDecisiveIndex(classify, after, ha);
    PendingThrough(classify, before, x, after, ka);
    if ka < ha {
      assert long[m + 1 + ka] == after[ka] && short[m + ka] == after[ka];
      FirstDecisiveObservationWins(classify, long, cutoff + 1, timeout, m + 1 + ka);
      FirstDecisiveObservationWins(classify, short, cutoff, timeout, m + ka);
    } else {
      assert Horizon(|long|, cutoff + 1) == m + 1 + ha;
      assert Horizon(|short|, cutoff) == m + ha;
      assert FirstVerdict(classify, long, cutoff + 1, timeout) == TimedOut(timeout);
      assert FirstVerdict(classify, short, cutoff, timeout) == TimedOut(timeout);
    }
  }

  /** Pending prefixes of `before`, `x` and `after` make Pending prefixes of
      the sequences with and without `x`. */
  lemma PendingThrough<O, T>(classify: O -> Verdict<T>, before: seq<O>, x: O, after: seq<O>, n: nat)
    requires n <= |after|
    requires AllPending(classify, before, |before|) && classify(x).Pending? && AllPending(classify, after, n)
    ensures AllPending(classify, before + [x] + after, |before| + 1 + n)
    ensures AllPending(classify, before + after, |before| + n)
  {
    var long := before + [x] + after;
    var short := before + after;
    var m := |before|;
    forall j | 0 <= j < m + 1 + n
      ensures classify(long[j]).Pending?
    {
      if j < m {
        assert long[j] == before[j];
      } else if j == m {
        assert long[j] == x;
      } else {
        assert long[j] == after[j - m - 1];
      }
    }
    forall j | 0 <= j < m + n
      ensures classify(short[j]).Pending?
    {
      if j < m {
        assert short[j] == before[j];
      } else {
        assert short[j] == after[j - m];
      }
    }
  }

  /**
   * The informer's run loop: it hands notifications to the handler one at a
   * time until the stop channel is closed, and the handler closes it on the
   * first decisive notification. Notifications after the stop are not handled.
   */
  method RunUntilStopped<O, T>(classify: O -> Verdict<T>, obs: seq<O>, cutoff: nat, timeout: string)
    returns (o: Outcome<T>, handled: nat)
    ensures o == FirstVerdict(classify, obs, cutoff, timeout)
    ensures handled <= Horizon(|obs|, cutoff)
    ensures o.TimedOut? ==> handled == Horizon(|obs|, cutoff)
    ensures !o.TimedOut? ==> 0 < handled && !classify(obs[handled - 1]).Pending?
                             && o == Settle(classify(obs[handled - 1]))
  {
    var stopped := false;
    var result: Outcome<T> := TimedOut(timeout);
    handled := 0;
    while handled < |obs| && handled < cutoff && !stopped
      invariant handled <= Horizon(|obs|, cutoff)
      invariant !stopped ==> AllPending(classify, obs, handled) && result == TimedOut(timeout)
      invariant stopped ==> 0 < handled && AllPending(classify, obs, handled - 1)
                            && !classify(obs[handled - 1]).Pending? && result == Settle(classify(obs[handled - 1]))
      decreases |obs| - handled
    {
      var v := classify(obs[handled]);
      if !v.Pending? {
        result := Settle(v);
        stopped := true;
      }
      handled := handled + 1;
    }
    o := result;
    if stopped {
      FirstDecisiveObservationWins(classify, obs, cutoff, timeout, handled - 1);
    }
  }

  /** A poll: the condition is checked once immediately and then `ticks` more
      times, once per tick the poller delivers while no check is running and
      once more when the poller stops at the deadline. The poll ends at the
      first check that is decisive. */
  function PollImmediate<O, T>(condition: O -> Verdict<T>, checks: seq<O>, ticks: nat): (o: Outcome<T>)
    // the first check is made before any interval elapses
    ensures |checks| > 0 && !condition(checks[0]).Pending? ==> o == Settle(condition(checks[0]))
    ensures o.TimedOut? <==> AllPending(condition, checks, Horizon(|checks|, ticks + 1))
    ensures o.TimedOut? ==> o.message == PollTimeoutMessage
    ensures !o.TimedOut? ==>
      exists k :: && 0 <= k < Horizon(|checks|, ticks + 1) && AllPending(condition, checks, k)
                  && !condition(checks[k]).Pending? && o == Settle(condition(checks[k]))
  {
    var o := FirstVerdict(condition, checks, ticks + 1, PollTimeoutMessage);
    if o.TimedOut? then o
    else
      var h := Horizon(|checks|, ticks + 1);
      var k := FirstDecisiveIndex(condition, checks, h);
      assert k < h;
      FirstDecisiveObservationWins(condition, checks, ticks + 1, PollTimeoutMessage, k);
      assert AllPending(condition, checks, k) && !condition(checks[k]).Pending? && o == Settle(condition(checks[k]));
      o
  }
}

=== FILE: discovery.dfy ===
/**
 * The lookups that lead from a running test pod to the droplet its volume is
 * attached to: the pod's first claim, and the droplet id in the provider id
 * of the node, `digitalocean://<id>`, parsed as a Go `int` on a 64-bit platform.
 */
module Discovery {
  import opened Wrappers
  import opened PodSpec
  import opened Resources
  import opened Convergence
  import opened Waits

  /** No volume before index `k` is backed by a claim. */
  ghost predicate NoClaimBefore(volumes: seq<Volume>, k: nat)
    requires k <= |volumes|
  {
    forall j :: 0 <= j < k ==> volumes[j].claim.None?
  }

  /** The claim name of the first claim-backed volume, or "" when there is none. */
  function FirstClaimName(volumes: seq<Volume>): (r: string)
    ensures NoClaimBefore(volumes, |volumes|) ==> r == ""
    ensures forall k :: 0 <= k < |volumes| && volumes[k].claim.Some? && NoClaimBefore(volumes, k) ==>
      r == volumes[k].claim.value
  {
    if volumes == [] then ""
    else if volumes[0].claim.Some? then volumes[0].claim.value
    else
      var r := FirstClaimName(volumes[1..]);
      assert forall j :: 0 <= j < |volumes| - 1 ==> volumes[1..][j] == volumes[j + 1];
      r
  }

  /** The claim a test wires into a pod without claims is the one the
      droplet lookup starts from. */
  lemma WiredClaimIsDiscovered(spec: Spec, containerName: string, volumeName: string, claimName: string,
                               mode: VolumeMode)
    requires NoClaimBefore(spec.volumes, |spec.volumes|)
    ensures FirstClaimName(AddPersistentVolume(spec, containerName, volumeName, claimName, mode).volumes) == claimName
  {
    var vs := AddPersistentVolume(spec, containerName, volumeName, claimName, mode).volumes;
    assert vs[|spec.volumes|] == Volume(volumeName, Some(claimName));
    assert NoClaimBefore(vs, |spec.volumes|);
  }

  /** A test pod built from scratch leads back to its claim. */
  lemma TestPodClaimIsDiscovered(appName: string, containerNames: seq<string>, volumeName: string,
                                 claimName: string)
    ensures FirstClaimName(AddPersistentVolumeMount(TestPodSpec(appName, containerNames), appName, volumeName,
                                                    claimName).volumes) == claimName
  {
    WiredClaimIsDiscovered(TestPodSpec(appName, containerNames), appName, volumeName, claimName, Filesystem);
  }

  /** The pod the running-pod wait returns leads to the claim that every
      delivered version of that pod carries. */
  lemma RunningPodLeadsToItsClaim(name: string, updates: seq<Pod>, cutoff: nat, claimName: string)
    requires forall k :: 0 <= k < |updates| && updates[k].name == name ==>
      FirstClaimName(updates[k].spec.volumes) == claimName
    ensures var o := WaitForPod(name, updates, cutoff);
      o.Done? ==> FirstClaimName(o.value.spec.volumes) == claimName
  {
    var o := WaitForPod(name, updates, cutoff);
    if o.Done? {
      var k :| 0 <= k < Horizon(|updates|, cutoff) && o.value == updates[k];
      assert updates[k].name == name;
    }
  }

  predicate IsDigit(c: char) {
    '0' <= c <= '9'
  }

  predicate AllDigits(s: string) {
    forall i :: 0 <= i < |s| ==> IsDigit(s[i])
  }

  /** The value of a string of decimal digits, most significant first. */
  function DigitsValue(s: string): nat
    requires AllDigits(s)
  {
    if s == [] then 0 else DigitsValue(s[..|s| - 1]) * 10 + (s[|s| - 1] as int - '0' as int)
  }

  const MinInt64: int := -0x8000_0000_0000_0000
  const MaxInt64: int := 0x7fff_ffff_ffff_ffff

  predicate InInt64(n: int) {
    MinInt64 <= n <= MaxInt64
  }

  /** Decimal parsing of a Go `int`: an optional `+` or `-`, at least one
      ASCII digit and nothing else, with the value in 64-bit range. */
  function Atoi(s: string): (r: Option<int>)
    ensures r.Some? ==> InInt64(r.value)
    ensures r.Some? ==> |s| > 0 && (IsDigit(s[0]) || s[0] == '+' || s[0] == '-')
    ensures r.Some? && r.value < 0 ==> s[0] == '-'
    ensures s == [] ==> r == None
    ensures |s| > 0 && s[0] != '+' && s[0] != '-' ==>
      r == if AllDigits(s) && DigitsValue(s) <= MaxInt64 then Some(DigitsValue(s)) else None
    ensures |s| > 0 && s[0] == '+' ==>
      r == if |s| > 1 && AllDigits(s[1..]) && DigitsValue(s[1..]) <= MaxInt64 then Some(DigitsValue(s[1..])) else None
    ensures |s| > 0 && s[0] == '-' ==>
      r == if |s| > 1 && AllDigits(s[1..]) && DigitsValue(s[1..]) <= -MinInt64 then Some(0 - DigitsValue(s[1..]))
           else None
  {
    var signed := |s| > 0 && (s[0] == '+' || s[0] == '-');
    var digits := if signed then s[1..] else s;
    if digits == [] || !AllDigits(digits) then None
    else
      var n: int := if signed && s[0] == '-' then 0 - DigitsValue(digits) else DigitsValue(digits);
      if InInt64(n) then Some(n) else None
  }

  /** The shortest decimal spelling of `n`. */
  function NatDigits(n: nat): (s: string)
    ensures |s| > 0 && AllDigits(s) && DigitsValue(s) == n
  {
    var last := ('0' as int + n % 10) as char;
    if n < 10 then [last]
    else
      var s := NatDigits(n / 10) + [last];
      assert s[..|s| - 1] == NatDigits(n / 10);
      s
  }

  /** Decimal formatting of an `int`, as Go's `strconv.Itoa`. */
  function Itoa(n: int): string {
    if n < 0 then "-" + NatDigits(-n) else NatDigits(n)
  }

  /** Parsing undoes formatting for every 64-bit value. */
  lemma AtoiItoaRoundTrip(n: int)
    requires InInt64(n)
    ensures Atoi(Itoa(n)) == Some(n)
  {
    if n < 0 {
      assert Itoa(n)[1..] == NatDigits(-n);
    } else {
      assert IsDigit(NatDigits(n)[0]);
    }
  }

  /** `s` without `prefix` when it starts with it, `s` otherwise. */
  function TrimPrefix(s: string, prefix: string): (r: string)
    ensures prefix <= s ==> prefix + r == s
    ensures !(prefix <= s) ==> r == s
  {
    if prefix <= s then s[|prefix|..] else s
  }

  const ProviderIdPrefix := "digitalocean://"

  datatype Node = Node(name: string, providerID: string)

  /** The droplet id found for a node, or why there is none. A node whose
      provider id parses as 0 is reported as missing, because 0 is the value
      the lookup starts from. */
  datatype DropletLookup = Droplet(id: int) | NodeMissing | BadProviderId(providerID: string)

  /** No node before index `k` carries the name `nodeName`. */
  ghost predicate NotNamedBefore(nodes: seq<Node>, nodeName: string, k: nat)
    requires k <= |nodes|
  {
    forall j :: 0 <= j < k ==> nodes[j].name != nodeName
  }

  /** The droplet behind the first node named `nodeName`. */
  function DropletId(nodes: seq<Node>, nodeName: string): (r: DropletLookup)
    ensures NotNamedBefore(nodes, nodeName, |nodes|) ==> r == NodeMissing
    ensures r.Droplet? ==> r.id != 0 && InInt64(r.id)
    ensures r.Droplet? ==>
      exists k :: && 0 <= k < |nodes| && NotNamedBefore(nodes, nodeName, k) && nodes[k].name == nodeName
                  && Atoi(TrimPrefix(nodes[k].providerID, ProviderIdPrefix)) == Some(r.id)
    ensures r.BadProviderId? ==>
      exists k :: && 0 <= k < |nodes| && NotNamedBefore(nodes, nodeName, k) && nodes[k] == Node(nodeName, r.providerID)
                  && Atoi(TrimPrefix(r.providerID, ProviderIdPrefix)).None?
    ensures forall k :: 0 <= k < |nodes| && NotNamedBefore(nodes, nodeName, k) && nodes[k].name == nodeName ==>
      var parsed := Atoi(TrimPrefix(nodes[k].providerID, ProviderIdPrefix));
      && (parsed.None? ==> r == BadProviderId(nodes[k].providerID))
      && (parsed == Some(0) ==> r == NodeMissing)
      && (parsed.Some? && parsed.value != 0 ==> r == Droplet(parsed.value))
  {
    if nodes == [] then NodeMissing
    else if nodes[0].name == nodeName then
      match Atoi(TrimPrefix(nodes[0].providerID, ProviderIdPrefix))
      case None => BadProviderId(nodes[0].providerID)
      case Some(id) => if id == 0 then NodeMissing else Droplet(id)
    else
      var r := DropletId(nodes[1..], nodeName);
      assert forall j :: 0 <= j < |nodes| - 1 ==> nodes[1..][j] == nodes[j + 1];
      r
  }

  /** A node whose provider id was formed from a non-zero droplet id yields
      that id back, whatever nodes follow it. */
  lemma {:induction false} DropletIdRoundTrip(before: seq<Node>, nodeName: string, id: int, after: seq<Node>)
    requires NotNamedBefore(before, nodeName, |before|)
    requires id != 0 && InInt64(id)
    ensures DropletId(before + [Node(nodeName, ProviderIdPrefix + Itoa(id))] + after, nodeName) == Droplet(id)
  {
    var nodes := before + [Node(nodeName, ProviderIdPrefix + Itoa(id))] + after;
    if before == [] {
      assert nodes[0] == Node(nodeName, ProviderIdPrefix + Itoa(id));
      assert TrimPrefix(ProviderIdPrefix + Itoa(id), ProviderIdPrefix) == Itoa(id);
      AtoiItoaRoundTrip(id);
    } else {
      assert nodes[0] == before[0];
      assert nodes[1..] == before[1..] + [Node(nodeName, ProviderIdPrefix + Itoa(id))] + after;
      DropletIdRoundTrip(before[1..], nodeName, id, after);
    }
  }
}

=== FILE: naming.dfy ===
/**
 * Kubernetes object names derived from Go test names: `_` becomes `-` and
 * ASCII letters are lower-cased, so that the name is a valid DNS label
 * character-wise; claim names add the `pvc-` prefix.
 */
module Naming {

  predicate IsUpperAscii(c: char) {
    'A' <= c <= 'Z'
  }

  /** ASCII lower-casing of one character; every other character is kept. */
  function LowerAscii(c: char): (d: char)
    ensures !IsUpperAscii(d)
    ensures IsUpperAscii(c) ==> d != c && d as int - c as int == 32
    ensures !IsUpperAscii(c) ==> d == c
  {
    if IsUpperAscii(c) then (c as int + 32) as char else c
  }

  /** A name is sanitized when it has no underscore and no upper-case ASCII letter. */
  ghost predicate Sanitized(s: string) {
    forall i :: 0 <= i < |s| ==> s[i] != '_' && !IsUpperAscii(s[i])
  }

  /** Every occurrence of `from` replaced by `to`. */
  function ReplaceAll(s: string, from: char, to: char): (r: string)
    ensures |r| == |s|
    ensures forall i :: 0 <= i < |s| ==> r[i] == if s[i] == from then to else s[i]
  {
    if s == [] then []
    else [if s[0] == from then to else s[0]] + ReplaceAll(s[1..], from, to)
  }

  /** Lower-cases every ASCII letter of `s`. */
  function ToLower(s: string): (r: string)
    ensures |r| == |s|
    ensures forall i :: 0 <= i < |s| ==> r[i] == LowerAscii(s[i])
  {
    if s == [] then [] else [LowerAscii(s[0])] + ToLower(s[1..])
  }

  /** The application name used for a test's pods and deployments. */
  function TestAppName(testName: string): (r: string)
    ensures |r| == |testName|
    ensures Sanitized(r)
    ensures forall i :: 0 <= i < |testName| ==>
      r[i] == (if testName[i] == '_' then '-' else LowerAscii(testName[i]))
  {
    ToLower(ReplaceAll(testName, '_', '-'))
  }

  /** The claim name used for a test's persistent-volume claim. */
  function TestClaimName(testName: string): (r: string)
    ensures |r| == |testName| + 4
    ensures Sanitized(r)
    ensures r[..4] == "pvc-" && r[4..] == TestAppName(testName)
    ensures r != TestAppName(testName)
  {
    "pvc-" + TestAppName(testName)
  }

  /** The names that sanitizing leaves unchanged are exactly the sanitized ones. */
  lemma {:induction false} AppNameFixedPoints(s: string)
    ensures TestAppName(s) == s <==> Sanitized(s)
  {
    var r := TestAppName(s);
    if Sanitized(s) {
      forall i | 0 <= i < |s|
        ensures r[i] == s[i]
      {
        assert s[i] != '_' && !IsUpperAscii(s[i]);
      }
    }
  }

  /** Sanitizing twice is the same as sanitizing once. */
  lemma AppNameIdempotent(s: string)
    ensures TestAppName(TestAppName(s)) == TestAppName(s)
  {
    AppNameFixedPoints(TestAppName(s));
  }

  /** A claim name is already sanitized, so deriving an app name from it changes nothing. */
  lemma ClaimNameIsFixedPoint(s: string)
    ensures TestAppName(TestClaimName(s)) == TestClaimName(s)
  {
    AppNameFixedPoints(TestClaimName(s));
  }

  /** Sanitizing works character by character, so it distributes over concatenation. */
  lemma {:induction false} AppNameOfConcat(a: string, b: string)
    ensures TestAppName(a + b) == TestAppName(a) + TestAppName(b)
  {
    var s, r := a + b, TestAppName(a + b);
    var ra, rb := TestAppName(a), TestAppName(b);
    forall i | 0 <= i < |s|
      ensures r[i] == (ra + rb)[i]
    {
      var c := s[i];
      assert r[i] == (if c == '_' then '-' else LowerAscii(c));
      if i < |a| {
        assert c == a[i];
        assert ra[i] == (if c == '_' then '-' else LowerAscii(c));
        assert (ra + rb)[i] == ra[i];
      } else {
        assert c == b[i - |a|];
        assert rb[i - |a|] == (if c == '_' then '-' else LowerAscii(c));
        assert (ra + rb)[i] == rb[i - |a|];
      }
    }
    assert |r| == |ra + rb|;
  }
}

=== FILE: pod_spec.dfy ===
/**
 * Pod specifications as the integration harness builds them: one test container
 * and the wiring of persistent-volume claims into it, either as a filesystem
 * mount or as a raw block device.
 */
module PodSpec {
  import opened Wrappers

  /** The volume mode of a claim. Kubernetes spells it as a plain string. */
  type VolumeMode = string

  const Filesystem: VolumeMode := "Filesystem"
  const Block: VolumeMode := "Block"

  /** A filesystem mount of a pod volume inside a container. */
  datatype VolumeMount = VolumeMount(mountPath: string, name: string)

  /** A raw block device exposed from a pod volume inside a container. */
  datatype VolumeDevice = VolumeDevice(devicePath: string, name: string)

  datatype Container = Container(
    name: string,
    image: string,
    command: seq<string>,
    mounts: seq<VolumeMount>,
    devices: seq<VolumeDevice>)

  /** A pod volume; `claim` is the claim name when the volume is backed by a
      persistent-volume claim, and None for every other volume source. */
  datatype Volume = Volume(name: string, claim: Option<string>)

  datatype Spec = Spec(containers: seq<Container>, volumes: seq<Volume>)

  /** Where a volume named `volumeName` appears inside the container. */
  function DataPath(volumeName: string): string {
    "/data/" + volumeName
  }

  /** The single busybox container every test pod runs. The container names
      passed after the app name are accepted and ignored. */
  function TestPodSpec(appName: string, containerNames: seq<string>): (r: Spec)
    ensures |r.containers| == 1
    ensures r.containers[0].name == appName
    ensures r.containers[0].mounts == [] && r.containers[0].devices == []
    ensures r.volumes == []
  {
    Spec([Container(appName, "busybox", ["sleep", "1000000"], [], [])], [])
  }

  /** The container `c` after the volume has been wired into it in `mode`. */
  function Attach(c: Container, volumeName: string, mode: VolumeMode): (r: Container)
    ensures r.name == c.name && r.image == c.image && r.command == c.command
    ensures mode == Block ==> r.mounts == c.mounts && |r.devices| == |c.devices| + 1
                              && r.devices[..|c.devices|] == c.devices
                              && r.devices[|c.devices|] == VolumeDevice("/data/" + volumeName, volumeName)
    ensures mode != Block ==> r.devices == c.devices && |r.mounts| == |c.mounts| + 1
                              && r.mounts[..|c.mounts|] == c.mounts
                              && r.mounts[|c.mounts|] == VolumeMount("/data/" + volumeName, volumeName)
  {
    if mode == Block then
      c.(devices := c.devices + [VolumeDevice(DataPath(volumeName), volumeName)])
    else
      c.(mounts := c.mounts + [VolumeMount(DataPath(volumeName), volumeName)])
  }

  /** Every container named `containerName` receives the volume; the others
      are copied as they are, in the same positions. */
  function WireContainers(cs: seq<Container>, containerName: string, volumeName: string,
                          mode: VolumeMode): (r: seq<Container>)
    ensures |r| == |cs|
    ensures forall i :: 0 <= i < |cs| && cs[i].name != containerName ==> r[i] == cs[i]
    ensures forall i :: 0 <= i < |cs| && cs[i].name == containerName ==> r[i] == Attach(cs[i], volumeName, mode)
  {
    if cs == [] then []
    else
      var head := if cs[0].name == containerName then Attach(cs[0], volumeName, mode) else cs[0];
      [head] + WireContainers(cs[1..], containerName, volumeName, mode)
  }

  /** Wires the claim `claimName` into `spec` as the pod volume `volumeName`. */
  function AddPersistentVolume(spec: Spec, containerName: string, volumeName: string,
                               claimName: string, mode: VolumeMode): (r: Spec)
    // exactly one volume is appended, even when no container matches
    ensures r.volumes == spec.volumes + [Volume(volumeName, Some(claimName))]
    ensures |r.containers| == |spec.containers|
    ensures forall i :: 0 <= i < |spec.containers| && spec.containers[i].name != containerName ==>
      r.containers[i] == spec.containers[i]
    // a matching container keeps its name, image and command
    ensures forall i :: 0 <= i < |spec.containers| ==>
      && r.containers[i].name == spec.containers[i].name
      && r.containers[i].image == spec.containers[i].image
      && r.containers[i].command == spec.containers[i].command
    ensures forall i :: 0 <= i < |spec.containers| && spec.containers[i].name == containerName && mode == Block ==>
      && r.containers[i].devices == spec.containers[i].devices + [VolumeDevice("/data/" + volumeName, volumeName)]
      && r.containers[i].mounts == spec.containers[i].mounts
    ensures forall i :: 0 <= i < |spec.containers| && spec.containers[i].name == containerName && mode != Block ==>
      && r.containers[i].mounts == spec.containers[i].mounts + [VolumeMount("/data/" + volumeName, volumeName)]
      && r.containers[i].devices == spec.containers[i].devices
  {
    Spec(WireContainers(spec.containers, containerName, volumeName, mode),
         spec.volumes + [Volume(volumeName, Some(claimName))])
  }

  /** Wires a claim in as a filesystem mount. */
  function AddPersistentVolumeMount(spec: Spec, containerName: string, volumeName: string,
                                    claimName: string): (r: Spec)
    ensures r.volumes == spec.volumes + [Volume(volumeName, Some(claimName))]
    ensures |r.containers| == |spec.containers|
    ensures forall i :: 0 <= i < |spec.containers| ==>
      if spec.containers[i].name == containerName then
        && r.containers[i].mounts == spec.containers[i].mounts + [VolumeMount("/data/" + volumeName, volumeName)]
        && r.containers[i].devices == spec.containers[i].devices
      else r.containers[i] == spec.containers[i]
  {
    AddPersistentVolume(spec, containerName, volumeName, claimName, Filesystem)
  }

  /** Wires a claim in as a raw block device. */
  function AddPersistentVolumeDevice(spec: Spec, containerName: string, volumeName: string,
                                     claimName: string): (r: Spec)
    ensures r.volumes == spec.volumes + [Volume(volumeName, Some(claimName))]
    ensures |r.containers| == |spec.containers|
    ensures forall i :: 0 <= i < |spec.containers| ==>
      if spec.containers[i].name == containerName then
        && r.containers[i].devices == spec.containers[i].devices + [VolumeDevice("/data/" + volumeName, volumeName)]
        && r.containers[i].mounts == spec.containers[i].mounts
      else r.containers[i] == spec.containers[i]
  {
    AddPersistentVolume(spec, containerName, volumeName, claimName, Block)
  }

  /** When no container carries `containerName`, only the volume list changes. */
  lemma NoMatchingContainerOnlyAddsVolume(spec: Spec, containerName: string, volumeName: string,
                                          claimName: string, mode: VolumeMode)
    requires forall i :: 0 <= i < |spec.containers| ==> spec.containers[i].name != containerName
    ensures AddPersistentVolume(spec, containerName, volumeName, claimName, mode)
         == spec.(volumes := spec.volumes + [Volume(volumeName, Some(claimName))])
  {
    var r := AddPersistentVolume(spec, containerName, volumeName, claimName, mode);
    assert r.containers == spec.containers;
  }

  /** Wiring two claims in one after the other, as the multi-volume test does,
      appends both volumes and both attachments in call order. */
  lemma TwoVolumesKeepCallOrder(spec: Spec, containerName: string, v1: string, c1: string,
                                v2: string, c2: string, mode: VolumeMode)
    ensures var r := AddPersistentVolume(AddPersistentVolume(spec, containerName, v1, c1, mode),
                                         containerName, v2, c2, mode);
      && r.volumes == spec.volumes + [Volume(v1, Some(c1)), Volume(v2, Some(c2))]
      && |r.containers| == |spec.containers|
      && (forall i :: 0 <= i < |spec.containers| && spec.containers[i].name == containerName && mode != Block ==>
            r.containers[i].mounts == spec.containers[i].mounts
                                      + [VolumeMount("/data/" + v1, v1), VolumeMount("/data/" + v2, v2)])
      && (forall i :: 0 <= i < |spec.containers| && spec.containers[i].name == containerName && mode == Block ==>
            r.containers[i].devices == spec.containers[i].devices
                                       + [VolumeDevice("/data/" + v1, v1), VolumeDevice("/data/" + v2, v2)])
  {
    var mid := AddPersistentVolume(spec, containerName, v1, c1, mode);
    var r := AddPersistentVolume(mid, containerName, v2, c2, mode);
    assert r.volumes == spec.volumes + [Volume(v1, Some(c1)), Volume(v2, Some(c2))];
  }
}

=== FILE: resources.dfy ===
/**
 * The cluster objects the harness observes, reduced to the fields its
 * convergence rules read, and the replies of the calls it polls with.
 */
module Resources {
  import opened PodSpec

  datatype PodPhase = PodPending | PodRunning | PodSucceeded | PodFailed | PodUnknown

  datatype Pod = Pod(name: string, phase: PodPhase, spec: Spec)

  /** A resource quantity, compared only for equality. `ZeroQuantity` is the
      value a lookup of a missing key in a resource list yields. */
  datatype Quantity = ZeroQuantity | Amount(repr: string)

  type ResourceList = map<string, Quantity>

  const StorageKey := "storage"

  /** The `storage` entry of a resource list; a missing entry reads as the zero quantity. */
  function StorageOf(rl: ResourceList): (q: Quantity)
    ensures StorageKey in rl ==> q == rl[StorageKey]
    ensures StorageKey !in rl ==> q == ZeroQuantity
    ensures q.Amount? ==> StorageKey in rl
  {
    if StorageKey in rl then rl[StorageKey] else ZeroQuantity
  }

  datatype VolumePhase = VolumePending | VolumeAvailable | VolumeBound | VolumeReleased | VolumeFailed

  /** A persistent volume; `capacity` is its spec capacity. */
  datatype PersistentVolume = PersistentVolume(name: string, phase: VolumePhase, capacity: ResourceList)

  datatype ClaimPhase = ClaimPending | ClaimBound | ClaimLost

  /** A persistent-volume claim; `capacity` is its status capacity. */
  datatype Claim = Claim(name: string, phase: ClaimPhase, capacity: ResourceList)

  /** The error a Get or Delete call returns: none (the object still exists),
      the API's "not found", or any other failure. */
  datatype Reply = Existing | NotFound | Fault(cause: string)

  /** The result of a List call. */
  datatype Listing<+T> = Listed(items: seq<T>) | ListFault(cause: string)

  /** The result of fetching a storage action of the cloud provider. */
  datatype ActionFetch = Fetched(status: string) | FetchFault(cause: string)

  /** The status the provider reports for a finished action. */
  const ActionCompleted := "completed"
}

=== FILE: waits.dfy ===
/**
 * The harness's waits, each the convergence fold applied to its own rule.
 * Watch-based waits see the update notifications delivered before their
 * five-minute timer fires (`cutoff` of them). Poll-based waits see one check
 * immediately and then `ticks` more: one per tick the poller delivers while
 * no check is running, and a closing one when the poller stops at the
 * deadline.
 */
module Waits {
  import opened Resources
  import opened Convergence
  import opened Classifiers

  const PodTimeoutMessage := "timing out waiting for pod state"
  const VolumeTimeoutMessage := "timing out waiting for pv capcity change"
  const ClaimTimeoutMessage := "timing out waiting for pvc capcity change"

  /** The update of `pod` ends a wait for pod `name`. */
  predicate PodSettles(name: string, pod: Pod) {
    pod.name == name && (pod.phase == PodRunning || pod.phase == PodFailed || pod.phase == PodSucceeded)
  }

  /** The update of `pv` ends a wait for a capacity change of volume `name`. */
  predicate VolumeSettles(name: string, baseline: ResourceList, pv: PersistentVolume) {
    pv.name == name
    && (pv.phase == VolumeFailed || (pv.phase == VolumeBound && StorageOf(pv.capacity) != StorageOf(baseline)))
  }

  /** The update of `claim` ends a wait for a capacity change of claim `name`. */
  predicate ClaimSettles(name: string, baseline: ResourceList, claim: Claim) {
    claim.name == name
    && (claim.phase == ClaimLost || (claim.phase == ClaimBound && StorageOf(claim.capacity) != StorageOf(baseline)))
  }

  /** The listing ends a wait for `count` pods. */
  predicate ListingSettles(count: int, listing: Listing<Pod>) {
    listing.ListFault? || |listing.items| == count
  }

  /** The fetch ends a wait for a provider action. */
  predicate FetchSettles(fetch: ActionFetch) {
    fetch.FetchFault? || fetch.status == ActionCompleted
  }

  /** Waits for pod `name` to run. */
  function WaitForPod(name: string, updates: seq<Pod>, cutoff: nat): (o: Outcome<Pod>)
    ensures o.Done? ==> exists k :: 0 <= k < Horizon(|updates|, cutoff) && o.value == updates[k]
    ensures o.Done? ==> o.value.name == name && o.value.phase == PodRunning
    ensures o.Failed? ==> o.reason == PodTerminatedMessage
    ensures o.TimedOut? ==> o.message == PodTimeoutMessage
    ensures o.TimedOut? <==> forall k :: 0 <= k < Horizon(|updates|, cutoff) ==> !PodSettles(name, updates[k])
    ensures !o.Aborted?
  {
    var classify := (p: Pod) => ClassifyPod(name, p);
    var o := FirstVerdict(classify, updates, cutoff, PodTimeoutMessage);
    assert forall k :: 0 <= k < |updates| ==> (classify(updates[k]).Pending? <==> !PodSettles(name, updates[k]));
    o
  }

  /** Waits for persistent volume `name` to be bound with a storage capacity
      other than the one in `baseline`. */
  function WaitForVolumeCapacityChange(name: string, baseline: ResourceList, updates: seq<PersistentVolume>,
                                       cutoff: nat): (o: Outcome<PersistentVolume>)
    ensures o.Done? ==> exists k :: 0 <= k < Horizon(|updates|, cutoff) && o.value == updates[k]
    ensures o.Done? ==> o.value.name == name && o.value.phase == VolumeBound
                        && StorageOf(o.value.capacity) != StorageOf(baseline)
    ensures o.Failed? ==> o.reason == VolumeFailedMessage
    ensures o.TimedOut? ==> o.message == VolumeTimeoutMessage
    ensures o.TimedOut? <==>
      forall k :: 0 <= k < Horizon(|updates|, cutoff) ==> !VolumeSettles(name, baseline, updates[k])
    ensures !o.Aborted?
  {
    var classify := (pv: PersistentVolume) => ClassifyVolume(name, baseline, pv);
    var o := FirstVerdict(classify, updates, cutoff, VolumeTimeoutMessage);
    assert forall k :: 0 <= k < |updates| ==>
      (classify(updates[k]).Pending? <==> !VolumeSettles(name, baseline, updates[k]));
    o
  }

  /** Waits for claim `name` to be bound with a storage capacity other than
      the one in `baseline`. */
  function WaitForVolumeClaimCapacityChange(name: string, baseline: ResourceList, updates: seq<Claim>,
                                            cutoff: nat): (o: Outcome<Claim>)
    ensures o.Done? ==> exists k :: 0 <= k < Horizon(|updates|, cutoff) && o.value == updates[k]
    ensures o.Done? ==> o.value.name == name && o.value.phase == ClaimBound
                        && StorageOf(o.value.capacity) != StorageOf(baseline)
    ensures o.Failed? ==> o.reason == ClaimLostMessage
    ensures o.TimedOut? ==> o.message == ClaimTimeoutMessage
    ensures o.TimedOut? <==>
      forall k :: 0 <= k < Horizon(|updates|, cutoff) ==> !ClaimSettles(name, baseline, updates[k])
    ensures !o.Aborted?
  {
    var classify := (c: Claim) => ClassifyClaim(name, baseline, c);
    var o := FirstVerdict(classify, updates, cutoff, ClaimTimeoutMessage);
    assert forall k :: 0 <= k < |updates| ==>
      (classify(updates[k]).Pending? <==> !ClaimSettles(name, baseline, updates[k]));
    o
  }

  /** Deletes (or, for a namespace, fetches) an object until the API reports
      it as not found. */
  function WaitForDeletion(replies: seq<Reply>, ticks: nat): (o: Outcome<()>)
    ensures o.Done? ==> exists k :: 0 <= k < Horizon(|replies|, ticks + 1) && replies[k] == NotFound
    ensures o.Aborted? ==> exists k :: 0 <= k < Horizon(|replies|, ticks + 1) && replies[k] == Fault(o.cause)
    ensures o.TimedOut? ==> o.message == PollTimeoutMessage
    ensures o.TimedOut? <==> forall k :: 0 <= k < Horizon(|replies|, ticks + 1) ==> replies[k] == Existing
    ensures !o.Failed?
  {
    PollImmediate(AbsenceCondition, replies, ticks)
  }

  /** Lists an application's pods until there are exactly `count` of them and
      returns that list. */
  function WaitForPodCount(count: int, listings: seq<Listing<Pod>>, ticks: nat): (o: Outcome<seq<Pod>>)
    ensures o.Done? ==> |o.value| == count
    ensures o.Done? ==> exists k :: 0 <= k < Horizon(|listings|, ticks + 1) && listings[k] == Listed(o.value)
    ensures o.Aborted? ==>
      exists k :: 0 <= k < Horizon(|listings|, ticks + 1) && listings[k] == ListFault(o.cause)
    ensures o.TimedOut? ==> o.message == PollTimeoutMessage
    ensures o.TimedOut? <==>
      forall k :: 0 <= k < Horizon(|listings|, ticks + 1) ==> !ListingSettles(count, listings[k])
    ensures !o.Failed?
  {
    var condition := (l: Listing<Pod>) => PodCountCondition(count, l);
    var o := PollImmediate(condition, listings, ticks);
    assert forall k :: 0 <= k < |listings| ==>
      (condition(listings[k]).Pending? <==> !ListingSettles(count, listings[k]));
    o
  }

  /** Fetches a storage action until the provider reports it completed. */
  function WaitForActionCompleted(fetches: seq<ActionFetch>, ticks: nat): (o: Outcome<()>)
    ensures o.Done? ==>
      exists k :: 0 <= k < Horizon(|fetches|, ticks + 1) && fetches[k] == Fetched(ActionCompleted)
    ensures o.Aborted? ==>
      exists k :: 0 <= k < Horizon(|fetches|, ticks + 1) && fetches[k] == FetchFault(o.cause)
    ensures o.TimedOut? ==> o.message == PollTimeoutMessage
    ensures o.TimedOut? <==> forall k :: 0 <= k < Horizon(|fetches|, ticks + 1) ==> !FetchSettles(fetches[k])
    ensures !o.Failed?
  {
    var o := PollImmediate(ActionCondition, fetches, ticks);
    assert forall k :: 0 <= k < |fetches| ==> (ActionCondition(fetches[k]).Pending? <==> !FetchSettles(fetches[k]));
    o
  }

  /** A Running update of the awaited pod, arriving before the timer and
      before any other decisive update, ends the wait with that update. */
  lemma RunningPodSucceeds(name: string, updates: seq<Pod>, cutoff: nat, k: nat)
    requires k < |updates| && k < cutoff
    requires forall j :: 0 <= j < k ==> !PodSettles(name, updates[j])
    requires updates[k].name == name && updates[k].phase == PodRunning
    ensures WaitForPod(name, updates, cutoff) == Done(updates[k])
  {
    var classify := (p: Pod) => ClassifyPod(name, p);
    assert AllPending(classify, updates, k) by {
      forall j | 0 <= j < k
        ensures classify(updates[j]).Pending?
      {
        assert !PodSettles(name, updates[j]);
      }
    }
    FirstDecisiveObservationWins(classify, updates, cutoff, PodTimeoutMessage, k);
  }

  /** A Failed or Succeeded update of the awaited pod, arriving before the
      timer and before any other decisive update, ends the wait with the
      terminated-pod error. */
  lemma TerminatedPodFailsWait(name: string, updates: seq<Pod>, cutoff: nat, k: nat)
    requires k < |updates| && k < cutoff
    requires forall j :: 0 <= j < k ==> !PodSettles(name, updates[j])
    requires updates[k].name == name && (updates[k].phase == PodFailed || updates[k].phase == PodSucceeded)
    ensures WaitForPod(name, updates, cutoff) == Failed(PodTerminatedMessage)
  {
    var classify := (p: Pod) => ClassifyPod(name, p);
    assert AllPending(classify, updates, k) by {
      forall j | 0 <= j < k
        ensures classify(updates[j]).Pending?
      {
        assert !PodSettles(name, updates[j]);
      }
    }
    FirstDecisiveObservationWins(classify, updates, cutoff, PodTimeoutMessage, k);
  }

  /** An update for another pod, delivered before the timer, never changes
      the outcome of a wait for pod `name`. */
  lemma OtherPodsAreIgnored(name: string, before: seq<Pod>, other: Pod, after: seq<Pod>, cutoff: nat)
    requires other.name != name
    requires |before| <= cutoff
    ensures WaitForPod(name, before + [other] + after, cutoff + 1) == WaitForPod(name, before + after, cutoff)
  {
    PendingObservationInvisible((p: Pod) => ClassifyPod(name, p), before, other, after, cutoff, PodTimeoutMessage);
  }

  /** A bound volume whose capacity still equals the baseline never ends the
      wait: only the timer does. */
  lemma UnchangedCapacityTimesOut(name: string, baseline: ResourceList, updates: seq<PersistentVolume>, cutoff: nat)
    requires forall k :: 0 <= k < |updates| ==>
      updates[k].phase == VolumeBound && StorageOf(updates[k].capacity) == StorageOf(baseline)
    ensures WaitForVolumeCapacityChange(name, baseline, updates, cutoff) == TimedOut(VolumeTimeoutMessage)
  {
    var classify := (pv: PersistentVolume) => ClassifyVolume(name, baseline, pv);
    assert AllPending(classify, updates, Horizon(|updates|, cutoff)) by {
      forall j | 0 <= j < Horizon(|updates|, cutoff)
        ensures classify(updates[j]).Pending?
      {
        assert updates[j].phase == VolumeBound;
      }
    }
  }

  /** An object seen twice and then reported missing is deleted at the third
      check, provided the poll makes at least three checks; with fewer, the
      wait times out. */
  lemma DeletionConvergesOnThirdCheck(ticks: nat)
    ensures ticks >= 2 ==> WaitForDeletion([Existing, Existing, NotFound], ticks) == Done(())
    ensures ticks < 2 ==> WaitForDeletion([Existing, Existing, NotFound], ticks).TimedOut?
  {
    if ticks >= 2 {
      FirstDecisiveObservationWins(AbsenceCondition, [Existing, Existing, NotFound], ticks + 1, PollTimeoutMessage, 2);
    }
  }

  /** A failing call ends a poll at once; it is not retried. */
  lemma FaultEndsPoll(replies: seq<Reply>, ticks: nat, cause: string)
    requires |replies| >= 2 && replies[0] == Existing && replies[1] == Fault(cause)
    requires ticks >= 1
    ensures WaitForDeletion(replies, ticks) == Aborted(cause)
  {
    FirstDecisiveObservationWins(AbsenceCondition, replies, ticks + 1, PollTimeoutMessage, 1);
  }

  /** The first decisive update of the awaited volume before the timer
      decides the wait: Failed fails it, a Bound update with a changed
      capacity ends it with that update. */
  lemma VolumeWaitSettlesOnFirstDecisive(name: string, baseline: ResourceList, updates: seq<PersistentVolume>,
                                         cutoff: nat, k: nat)
    requires k < |updates| && k < cutoff
    requires forall j :: 0 <= j < k ==> !VolumeSettles(name, baseline, updates[j])
    requires VolumeSettles(name, baseline, updates[k])
    ensures WaitForVolumeCapacityChange(name, baseline, updates, cutoff)
         == if updates[k].phase == VolumeFailed then Failed(VolumeFailedMessage) else Done(updates[k])
  {
    var classify := (pv: PersistentVolume) => ClassifyVolume(name, baseline, pv);
    assert AllPending(classify, updates, k) by {
      forall j | 0 <= j < k
        ensures classify(updates[j]).Pending?
      {
        assert !VolumeSettles(name, baseline, updates[j]);
      }
    }
    FirstDecisiveObservationWins(classify, updates, cutoff, VolumeTimeoutMessage, k);
  }

  /** The first decisive update of the awaited claim before the timer
      decides the wait: Lost fails it, a Bound update with a changed
      capacity ends it with that update. */
  lemma ClaimWaitSettlesOnFirstDecisive(name: string, baseline: ResourceList, updates: seq<Claim>,
                                        cutoff: nat, k: nat)
    requires k < |updates| && k < cutoff
    requires forall j :: 0 <= j < k ==> !ClaimSettles(name, baseline, updates[j])
    requires ClaimSettles(name, baseline, updates[k])
    ensures WaitForVolumeClaimCapacityChange(name, baseline, updates, cutoff)
         == if updates[k].phase == ClaimLost then Failed(ClaimLostMessage) else Done(updates[k])
  {
    var classify := (c: Claim) => ClassifyClaim(name, baseline, c);
    assert AllPending(classify, updates, k) by {
      forall j | 0 <= j < k
        ensures classify(updates[j]).Pending?
      {
        assert !ClaimSettles(name, baseline, updates[j]);
      }
    }
    FirstDecisiveObservationWins(classify, updates, cutoff, ClaimTimeoutMessage, k);
  }

  /** The first reply other than "still exists" before the deadline decides
      a deletion wait: "not found" ends it, any other error aborts it. */
  lemma DeletionSettlesOnFirstAnswer(replies: seq<Reply>, ticks: nat, k: nat)
    requires k < |replies| && k <= ticks
    requires forall j :: 0 <= j < k ==> replies[j] == Existing
    requires replies[k] != Existing
    ensures WaitForDeletion(replies, ticks) == if replies[k] == NotFound then Done(()) else Aborted(replies[k].cause)
  {
    assert AllPending(AbsenceCondition, replies, k);
    FirstDecisiveObservationWins(AbsenceCondition, replies, ticks + 1, PollTimeoutMessage, k);
  }

  /** The first listing before the deadline that fails or holds `count` pods
      decides the wait: a list error aborts it, otherwise those pods are returned. */
  lemma PodCountSettlesOnFirstDecisive(count: int, listings: seq<Listing<Pod>>, ticks: nat, k: nat)
    requires k < |listings| && k <= ticks
    requires forall j :: 0 <= j < k ==> !ListingSettles(count, listings[j])
    requires ListingSettles(count, listings[k])
    ensures WaitForPodCount(count, listings, ticks)
         == if listings[k].ListFault? then Aborted(listings[k].cause) else Done(listings[k].items)
  {
    var condition := (l: Listing<Pod>) => PodCountCondition(count, l);
    assert AllPending(condition, listings, k) by {
      forall j | 0 <= j < k
        ensures condition(listings[j]).Pending?
      {
        assert !ListingSettles(count, listings[j]);
      }
    }
    FirstDecisiveObservationWins(condition, listings, ticks + 1, PollTimeoutMessage, k);
  }

  /** The first fetch before the deadline that fails or reports `completed`
      decides the wait: a fetch error aborts it, completion ends it. */
  lemma ActionSettlesOnFirstDecisive(fetches: seq<ActionFetch>, ticks: nat, k: nat)
    requires k < |fetches| && k <= ticks
    requires forall j :: 0 <= j < k ==> !FetchSettles(fetches[j])
    requires FetchSettles(fetches[k])
    ensures WaitForActionCompleted(fetches, ticks)
         == if fetches[k].FetchFault? then Aborted(fetches[k].cause) else Done(())
  {
    assert AllPending(ActionCondition, fetches, k) by {
      forall j | 0 <= j < k
        ensures ActionCondition(fetches[j]).Pending?
      {
        assert !FetchSettles(fetches[j]);
      }
    }
    FirstDecisiveObservationWins(ActionCondition, fetches, ticks + 1, PollTimeoutMessage, k);
  }
}

=== FILE: wrappers.dfy ===
/** Optional values and results with an error message, shared by every module of the model. */
module Wrappers {

  /** A value that may be absent, such as an unset optional field. */
  datatype Option<+T> = None | Some(value: T)

  /** A value or the text of the error that prevented computing it. */
  datatype Result<+T> = Ok(value: T) | Err(message: string)
}
